=== FILE: README.md ===
# n8n2openai in Dafny

n8n2openai is a small Go gateway. It puts an OpenAI-compatible
`/v1/models` and `/v1/chat/completions` surface in front of an n8n chat
webhook. This project models the gateway's two translation cores as pure
functions over immutable datatypes and proves their properties.

1. **The model registry** (`models.go`). The `MODELS` configuration string
   `name=url;name=url` is split on `;` and then on `=`. A segment that splits
   into exactly two fields adds an entry, and a later duplicate overwrites an
   earlier one. An empty string is fatal, and so is a string with no entry.
   The parsed map is remembered. The `/v1/models` listing returns one
   `"model"` card per registry key.
2. **The chat pipeline** (`chat_completions.go`):
   - The backend payload: action `sendMessage`, the caller's `user` as the
     session, and the text of the last content part as the chat input.
   - The item filter, and the one-level unwrap of nested JSON.
   - Delivery to a callback, which stops at the first error.
   - The aggregated `chat.completion` reply.
   - The streamed reply: a start event, one content event per delivered
     item, then a finish event.
   - The `data: <json>\n\n` frame of each event. This follows the
     event-stream format of the WHATWG HTML Living Standard, section 9.2
     (Server-sent events).
   - The dispatch of `chatCompletionsHandler`.

Modules, one file each:

| module | file | models |
|---|---|---|
| `Wrappers` | `wrappers.dfy` | `Option`, `Outcome` (nil error or an error), `Result` |
| `Text` | `text.dfy` | Go's `strings.Split` with a one-character separator, and `Join`, its inverse, for the round-trip lemmas |
| `Models` | `models.dfy` | `getModels` (parse, fatal cases, memoisation) and `modelsHandler` |
| `Api` | `api.dfy` | the request, response and stream-chunk records, built from their field usage |
| `N8n` | `n8n.dfy` | `n8nChat`: payload, filter, unwrap, delivery |
| `Completion` | `completion.dfy` | `handleNonStreamChatCompletion` and `handleStreamChatCompletion` |
| `EventStream` | `event_stream.dfy` | the `sendStreamEvent` frame, and a decoder of those frames as its partner |
| `Handler` | `handler.dfy` | `chatCompletionsHandler` |

The effects and non-deterministic inputs of the Go code are parameters or
data here:

- **Environment and exit.** `os.Getenv("MODELS")` is the string argument
  `env`. The two `os.Exit(-1)` calls are `Failure(NotSet)` and
  `Failure(InvalidFormat)`.
- **The `Models` global.** It is the `Cache` value threaded through
  `GetModels`.
- **Map iteration.** The random order of Go's map iteration is a `:|` choice
  in `Enumerate`.
- **Time.** The `time.Now()` readings are a `clock` function or a `created`
  argument.
- **Stream id.** The stream's uuid is `streamId`.
- **Backend reply.** The webhook's reply is a `Backend` value. It holds the
  items the JSON decoder produced, then how the decode loop ended. `Pass`
  means `decoder.More()` turned false (see the notes below).
  `Fail(DecodeError)` means a value failed to decode. A failed
  `http.DefaultClient.Do` (`chat_completions.go:105-108`) is
  `Backend([], Fail(TransportError))`. The backend's error type
  `BackendError` excludes `WriteError`: a write error only ever comes from
  the stream's callback.
- **Nested JSON.** The check `json.Valid` plus `json.Unmarshal` of an item's
  content is the parameter `parse: string -> Option<Item>`.
- **Response writer.** It is `writeOk: nat -> bool`: call `k` of
  `sendStreamEvent` succeeds exactly when `writeOk(k)` holds, and the start
  event is call 0.
- **Index panic.** `n8nChat` indexes the last message and its last part
  without checking. `N8n.BuildAction` and `N8n.N8nChat` therefore require
  `HasChatInput`. The handlers model the panic as an outcome of its own:
  `Panicked`, or `PanickedAfterStart` in the stream, where the start event
  has already been attempted.

Notes on what the code does, which the model follows:

- **When the finish event is sent.** It is not sent when the start write
  fails (`chat_completions.go:168-172`). It is not sent when n8nChat returns
  an error (`chat_completions.go:198-201`): a backend error, or a failed
  content write, which the callback reports as its error.
  `Completion.HandleStream` states exactly when `Finished` happens.
  `Completion.UnfinishedStreamHasNoFinish` proves that a stream which does
  not finish carries no finish event.
- **Where the POST goes.** The POST always goes to the fixed URL at
  `chat_completions.go:99`. The registry only validates the model name
  (`chat_completions.go:28`). `Handler.RegistryUrlUnused` states this.
- **The chat input.** It is the last content part of the last message,
  whatever that message's role (`chat_completions.go:92`). The user
  transcript built before it is discarded. `N8n.BuildAction` and
  `N8n.TranscriptDiscarded` state this.
- **A truncated or failed body counts as success.** The decode loop runs
  while `decoder.More()` holds (`chat_completions.go:114`). `More` is false
  at the end of the body. It is also false on a read error between values,
  or on a stray `]` or `}`. In those cases n8nChat returns nil after the
  items decoded so far. The aggregated reply is then a 200 with the partial
  content, and the stream sends its finish event. In the model, every such
  ending is `Pass`.
- **The backend's status is not checked.** An error body is decoded like
  any other. Its values are filtered and delivered like ordinary items.

## Model

| member | source | states |
|---|---|---|
| Text.Split | models.go:25-26 | Go's split on a one-character separator: one piece more than there are separators, and no piece holds the separator |
| Text.SplitThenJoin | models.go:25-26 | splitting loses nothing: joining the pieces with the separator gives back the original string |
| Text.JoinThenSplit | models.go:25-26 | a non-empty list of separator-free pieces, joined and split again, comes back exactly |
| Text.SplitAround | models.go:25-26 | a separator at any position splits the string into the pieces of its left part followed by the pieces of its right part |
| Text.SplitWithoutSeparator | models.go:25-26 | a string without the separator is a single piece |
| Models.EntryShape | models.go:26-27 | a segment is kept exactly when it holds one `=`; it is then name, `=`, URL, and neither part holds `=` |
| Models.EntryOf | models.go:26-31 | any `=`-free name and URL, empty ones included, form an entry with that name and URL |
| Models.AddEntries | models.go:25-32 | the parse loop never removes a key it started with |
| Models.AddEntriesLookup | models.go:25-32 | after the loop, a key is present exactly when some segment defines it (or it was there before); its value is the URL of the last segment defining it |
| Models.LastDefinitionExists | models.go:25-31 | the reference "last definition" exists exactly when some segment defines the key |
| Models.LastDefinitionIsLast | models.go:31 | when segment `i` defines a key and no later segment does, segment `i`'s URL is the one kept: later duplicates overwrite earlier ones |
| Models.AddEntriesAppend | models.go:25-32 | the loop over a concatenation of segment lists is the loop over the second continued from the first |
| Models.ParseModels | models.go:19-37 | an empty configuration fails with NotSet; a successful registry is never empty |
| Models.ParseModelsSpec | models.go:19-37 | parsing succeeds exactly when the string is non-empty and some segment is an entry; the registry then holds exactly the defined names, each mapped to its last definition's URL |
| Models.MalformedSegmentSkipped | models.go:26-29 | a segment that is not an entry, between two other segments, contributes nothing |
| Models.LeadingMalformedSegmentSkipped | models.go:25-29 | a malformed first segment contributes nothing when something follows it |
| Models.TrailingMalformedSegmentSkipped | models.go:25-29 | a malformed last segment contributes nothing when something precedes it |
| Models.TrailingSeparatorSkipped | models.go:25-29 | for a non-empty configuration, a trailing `;` (an empty segment) changes nothing |
| Models.EmptyNameOrUrlAccepted | models.go:26-31 | `=x` yields the single entry "" → "x", and `a=` yields the single entry "a" → "" |
| Models.TwoSeparatorsRejected | models.go:26-29 | a segment with two `=` is not an entry |
| Models.LoneMalformedSegmentRejected | models.go:33-36 | a non-empty configuration with only one segment, which is not an entry, fails with InvalidFormat |
| Models.QueryStringUrlRejected | models.go:26-36 | a URL with a query string (`a=x?k=v`) is skipped, and alone it fails with InvalidFormat |
| Models.BareNameRejected | models.go:26-36 | a bare name `bad` is skipped, and alone it fails with InvalidFormat |
| Models.TwoEntries | models.go:25-32 | two entries give a registry of exactly those two (the second wins when the names coincide) |
| Models.EntryBadEntry | models.go:25-36 | two entries around a malformed segment give exactly those two entries |
| Models.MixedConfiguration | models.go:25-32 | `a=x1;bad;b=y2` gives exactly a → x1 and b → y2 |
| Models.GetModels | models.go:15-38 | a loaded registry is returned as is; otherwise the configuration is parsed, and success is remembered while failure is reported |
| Models.GetModelsIdempotent | models.go:16-18 | once loading succeeds, every later call returns the same registry whatever the configuration now says |
| Models.Enumerate | models.go:47 | the map's keys, each exactly once, in some order |
| Models.ListModels | models.go:41-55 | object "list"; exactly one card per registry key, ids distinct and all keys; each card has object "model" |
| N8n.BuildAction | chat_completions.go:74-92 | the payload has action "sendMessage", the request's user as session, and the last part of the last message as chat input |
| N8n.Outbound | chat_completions.go:94-104 | the POST always goes to the fixed webhook URL and carries that payload |
| N8n.PayloadIgnoresHistory | chat_completions.go:79-92 | two requests with the same user and the same last part send the same POST, whatever their earlier messages, roles or model |
| N8n.TranscriptDiscarded | chat_completions.go:81-92 | the user transcript is built and then replaced: after a user turn and an assistant turn, the chat input is the assistant's last part |
| N8n.Resolve | chat_completions.go:121-132 | an item whose type is not "item" is dropped; otherwise the callback gets the nested item when the content parses (its type not checked again), else the item itself |
| N8n.Accepted | chat_completions.go:114-132 | filtering never produces more items than the backend sent |
| N8n.AcceptedAppend | chat_completions.go:114-132 | filtering works item by item in arrival order: it distributes over concatenation |
| N8n.NonItemDropped | chat_completions.go:121-123 | an item whose type is not "item" contributes nothing, wherever it arrives |
| N8n.ItemKept | chat_completions.go:121-132 | an "item" contributes exactly its one-level unwrapped form, in its place |
| N8n.NoItemsNothingAccepted | chat_completions.go:121-123 | a backend that sends no "item" delivers nothing |
| N8n.Deliver | chat_completions.go:114-138 | what is handed to the callback is a prefix of the accepted items, in order, and every item but the last was accepted by the callback |
| N8n.DeliverAll | chat_completions.go:114-138 | when the callback accepts everything, every accepted item is delivered and the decoder's own outcome is returned |
| N8n.DeliverStops | chat_completions.go:133-136 | when the callback refuses some item, delivery stops at the first refusal and returns that error |
| N8n.N8nChat | chat_completions.go:73-139 | it posts the payload to the webhook and hands the callback a prefix of the accepted items, all but the last accepted; it returns nil exactly when decoding ended cleanly and the callback accepted every item; otherwise delivery is as DeliverAll or DeliverStops say |
| Completion.HandleNonStream | chat_completions.go:43-71 | it panics exactly without a last part; it replies exactly when the backend succeeds, with one choice (index 0, role "assistant", "stop"), object "chat.completion", id "chatcmpl-123", the request's model, and the delivered contents concatenated in order; on error it writes no body (the client gets an empty 200) |
| Completion.WriteContentAccepts | chat_completions.go:192-196 | the streaming callback accepts every item exactly when writes 1 through n succeed |
| Completion.HandleStream | chat_completions.go:142-219 | the start event goes first and every event shares id, object, created and model; the stream finishes exactly when the start write, the backend and every content write succeed, and it then holds the start event, one content event per delivered item, and the finish event |
| Completion.StreamAfterStart | chat_completions.go:174-217 | after the start event: the finish event is sent exactly when n8nChat returned nil; otherwise the stream ends with n8nChat's error after the content events of what was delivered |
| Completion.DeltaTextAppend | chat_completions.go:174-191 | the text assembled from a stream's deltas distributes over concatenation |
| Completion.DeltaTextOfContent | chat_completions.go:175-191 | the content events' deltas spell out the items' contents, in order |
| Completion.FinishedStreamIsFramed | chat_completions.go:154-217 | a finished stream is framed (one start, content events only, one finish), has one content event per accepted item with that item's content, and its deltas spell out the aggregated text |
| Completion.StreamStopsEarly | chat_completions.go:168-201 | an unfinished stream carries the content events of a prefix of the accepted items; every write before the last succeeded; a write error means the last content event's write failed, and any other abort is the backend's error after all items were sent |
| Completion.UnfinishedStreamHasNoFinish | chat_completions.go:168-201 | a stream that does not finish holds the start event and content events only, never a finish event |
| Completion.StreamMatchesNonStream | chat_completions.go:43-219 | with a writer that never fails, the stream finishes exactly when the aggregated reply is produced, and their texts agree |
| EventStream.Frame | chat_completions.go:235 | a frame is `data: `, the payload, then a blank line, eight characters longer than the payload |
| EventStream.SendStreamEvent | chat_completions.go:228-246 | the bytes written for a chunk are `data: `, the chunk's JSON encoding, then a blank line |
| EventStream.TakeLine | chat_completions.go:235 | reads up to the first LF, which exists exactly when the string holds one |
| EventStream.TakeLineOf | chat_completions.go:235 | a line without LF, followed by LF, is read back whole |
| EventStream.FramesDecode | chat_completions.go:228-246 | frames written back to back decode to their payloads when no payload holds an LF |
| EventStream.WrittenFrames | chat_completions.go:228-246 | writing a stream chunk by chunk is writing the frames of the chunks' encodings back to back |
| EventStream.StreamDecodes | chat_completions.go:228-246 | the bytes sendStreamEvent writes for a stream's chunks decode back to the chunks' encodings, one event per chunk in order |
| Handler.RouteOf | chat_completions.go:27-39 | "Invalid model name" exactly when the registry has no non-empty URL for the model; otherwise stream exactly when `stream` is present and true |
| Handler.ChatCompletions | chat_completions.go:17-40 | a body that fails to bind gives 400 "Invalid request format"; an unusable model gives 400 "Invalid model name"; otherwise the streamed handler exactly when `stream` is true, else the aggregated one |
| Handler.EmptyUrlRejected | chat_completions.go:27-32 | a model configured as `a=` loads, but a request for it is rejected with 400 "Invalid model name" |
| Handler.RegistryUrlUnused | chat_completions.go:27-39 | the reply does not depend on which URL the registry holds for an accepted model, and the backend is always the fixed webhook |

## Left out

- HTTP plumbing: gin's JSON binding, the response headers, `c.JSON`, and the `http.Flusher` flush (`chat_completions.go:17-24, 145-149, 241-243`). Binding is an `Option<ChatRequest>` argument. The streamed output is the sequence of chunks handed to `sendStreamEvent`.
- The `net/http` client call (`chat_completions.go:99-110`). `http.NewRequest` cannot fail on the fixed URL. The rest is the `Backend` value.
- JSON encoding and decoding. Encoding is the parameter `encode` of `EventStream.SendStreamEvent`, and nested decoding is the parameter `parse`. `json.Marshal` of these flat records cannot fail, so its error paths (`chat_completions.go:94-98, 229-232`) are not modelled.
- Decoder quirks. The reused `item` variable, which can keep stale fields across `Decode` calls, is left out: each decoded item is taken to be complete. Case-insensitive field matching is left out too.
- Item metadata is a `map<string, string>` rather than arbitrary JSON values. The model never reads it.
- The backend's HTTP status, which the code never checks. An error body is decoded as items (see the notes above).
- The finish event's own write error, which the code ignores (`chat_completions.go:217`), plays no part: the model records that the event was sent.
- Logging, `time.Now`, and `uuid.New` are parameters or dropped.
- gin's recovery middleware is not part of this model. When the non-streamed path panics (`Panicked`), it answers 500. In the stream (`PanickedAfterStart`), the start event has already been written and flushed with status 200 (`chat_completions.go:168`, `235-243`). Recovery cannot change that status, so the client sees the stream end after the start event.
- The unguarded lazy initialisation of `Models` races under concurrent requests. Concurrency is out of scope.
- `Handler.ChatCompletions` and `Models.ListModels` take the registry as already loaded. The fatal start-up path belongs to `Models.GetModels`.
- `Models.ListModels`: for an empty registry Go would encode `data` as `null`, not `[]`. Such a registry cannot be loaded, so the case does not arise.
- EventStream's decoder reads only what the gateway writes: one `data` field per event, LF line endings, and a single space after the colon. It is not a full event-stream parser.
- main.go: environment loading, gin mode, routing, the port default and the authentication middleware. This is start-up glue.

=== FILE: api.dfy ===
/** The OpenAI-shaped wire types of the gateway, as far as the handlers use
    them: the inbound chat request, the aggregated completion and the
    streamed chunk. JSON encoding and decoding of these types is not modelled. */
module Api {
  import opened Wrappers

  /** One content part of a message; only its text is read. */
  datatype ContentPart = ContentPart(text: string)

  datatype Message = Message(role: string, content: seq<ContentPart>)

  /** The inbound `/v1/chat/completions` body. `stream` is a nullable
      boolean: absent, false or true. */
  datatype ChatRequest = ChatRequest(
    model: string,
    messages: seq<Message>,
    user: string,
    stream: Option<bool>)

  // Non-streamed response.

  datatype ChoiceMessage = ChoiceMessage(role: string, content: string)

  datatype Choice = Choice(index: int, message: ChoiceMessage, finishReason: string)

  datatype ChatCompletion = ChatCompletion(
    id: string,
    objectType: string,
    created: int,
    model: string,
    choices: seq<Choice>)

  // Streamed response.

  /** The delta of a chunk; both fields are nullable and omitted when null. */
  datatype Delta = Delta(role: Option<string>, content: Option<string>)

  datatype StreamChoice = StreamChoice(index: int, delta: Delta, finishReason: Option<string>)

  datatype Chunk = Chunk(
    id: string,
    objectType: string,
    created: int,
    model: string,
    choices: seq<StreamChoice>)
}

=== FILE: completion.dfy ===
/** The two response shapes of `/v1/chat/completions`: one aggregated
    `chat.completion` object, or a stream of `chat.completion.chunk` events
    framed by a start and a finish event. The clock and the stream id are
    parameters; the response writer is modelled by which of its writes succeed. */
module Completion {
  import opened Wrappers
  import opened Api
  import opened N8n

  /** The contents of `items`, concatenated in order. */
  function Contents(items: seq<Item>): string
    decreases |items|
  {
    if |items| == 0 then "" else items[0].content + Contents(items[1..])
  }

  // ---------------------------------------------------------------------------
  // Non-streamed

  /** How a non-streamed request ends: one response; no body written at all
      (the backend failed and the error is only logged, so the client gets an
      empty 200 once gin writes the pending header); or a panic on a request
      without a last content part. */
  datatype NonStreamOutcome = Replied(response: ChatCompletion) | Silent(error: ChatError) | Panicked

  /** handleNonStreamChatCompletion: collect every delivered item's content
      and answer with a single choice. */
  function HandleNonStream(req: ChatRequest, backend: Backend, parse: NestedParser, created: int): (r: NonStreamOutcome)
    ensures r.Panicked? <==> !HasChatInput(req)
    ensures HasChatInput(req) ==> (r.Replied? <==> backend.end == Pass)
    ensures r.Silent? ==> backend.end == Fail(r.error)
    ensures r.Replied? ==>
      && r.response.id == "chatcmpl-123"
      && r.response.objectType == "chat.completion"
      && r.response.created == created
      && r.response.model == req.model
      && |r.response.choices| == 1
      && r.response.choices[0].index == 0
      && r.response.choices[0].finishReason == "stop"
      && r.response.choices[0].message.role == "assistant"
      && r.response.choices[0].message.content == Contents(Accepted(backend.decoded, parse))
  {
    if !HasChatInput(req) then Panicked
    else
      var x := N8nChat(req, backend, parse, (k: nat, item: Item) => Pass);
      match x.delivery.status
      case Fail(e) => Silent(e)
      case Pass =>
        Replied(ChatCompletion("chatcmpl-123", "chat.completion", created, req.model,
          [Choice(0, ChoiceMessage("assistant", Contents(x.delivery.handed)), "stop")]))
  }

  // ---------------------------------------------------------------------------
  // Streamed

  const ChunkObject: string := "chat.completion.chunk"

  /** The start event: the role and nothing else. */
  function StartChunk(id: string, created: int, model: string): Chunk {
    Chunk(id, ChunkObject, created, model, [StreamChoice(0, Delta(Some("assistant"), None), None)])
  }

  /** A content event carrying one item's content. */
  function ContentChunk(id: string, created: int, model: string, text: string): Chunk {
    Chunk(id, ChunkObject, created, model, [StreamChoice(0, Delta(None, Some(text)), None)])
  }

  /** The finish event: finish reason `stop`, no content. */
  function FinishChunk(id: string, created: int, model: string): Chunk {
    Chunk(id, ChunkObject, created, model, [StreamChoice(0, Delta(None, None), Some("stop"))])
  }

  function ContentChunks(id: string, created: int, model: string, items: seq<Item>): (cs: seq<Chunk>)
    ensures |cs| == |items|
  {
    seq(|items|, i requires 0 <= i < |items| => ContentChunk(id, created, model, items[i].content))
  }

  predicate IsStart(c: Chunk) {
    |c.choices| == 1 && c.choices[0].index == 0 &&
    c.choices[0].delta == Delta(Some("assistant"), None) && c.choices[0].finishReason.None?
  }

  predicate IsContent(c: Chunk) {
    |c.choices| == 1 && c.choices[0].index == 0 &&
    c.choices[0].delta.role.None? && c.choices[0].delta.content.Some? && c.choices[0].finishReason.None?
  }

  predicate IsFinish(c: Chunk) {
    |c.choices| == 1 && c.choices[0].index == 0 &&
    c.choices[0].delta == Delta(None, None) && c.choices[0].finishReason == Some("stop")
  }

  /** The stream protocol: exactly one start event, then content events only, then exactly one finish event. */
  predicate Framed(events: seq<Chunk>) {
    && |events| >= 2
    && IsStart(events[0])
    && IsFinish(events[|events| - 1])
    && forall i :: 0 < i < |events| - 1 ==> IsContent(events[i])
  }

  /** All events carry the same id, object, creation time and model. */
  predicate SharesEnvelope(events: seq<Chunk>, id: string, created: int, model: string) {
    forall i :: 0 <= i < |events| ==>
      events[i].id == id && events[i].objectType == ChunkObject &&
      events[i].created == created && events[i].model == model
  }

  /** The text a client assembles from the deltas of a stream. */
  function DeltaText(events: seq<Chunk>): string
    decreases |events|
  {
    if |events| == 0 then ""
    else
      var c := events[0];
      (if |c.choices| > 0 && c.choices[0].delta.content.Some? then c.choices[0].delta.content.value else "")
      + DeltaText(events[1..])
  }

  /** How a streamed request ends. */
  datatype StreamEnd =
    | Finished             // the finish event was sent
    | StartFailed          // writing the start event failed
    | Aborted(error: ChatError)  // the backend or a content write failed
    | PanickedAfterStart   // panic on a request without a last content part

  /** The events handed to sendStreamEvent, in order, and how the stream ended. */
  datatype StreamRun = StreamRun(events: seq<Chunk>, end: StreamEnd)

  /** The content events are written through the callback; its `k`-th
      invocation is the response's write number `k + 1`. */
  function WriteContent(writeOk: nat -> bool): Callback {
    (k: nat, item: Item) => if writeOk(k + 1) then Pass else Fail(WriteError)
  }

  /** The content writes all succeed exactly when writes 1 to `|items|` do. */
  lemma WriteContentAccepts(writeOk: nat -> bool, items: seq<Item>)
    ensures AllAccepted(WriteContent(writeOk), 0, items) <==>
      forall k :: 1 <= k <= |items| ==> writeOk(k)
  {
    if forall k :: 1 <= k <= |items| ==> writeOk(k) {
      forall i | 0 <= i < |items| ensures WriteContent(writeOk)(0 + i, items[i]) == Pass {
        assert writeOk(i + 1);
      }
    }
    if AllAccepted(WriteContent(writeOk), 0, items) {
      forall k | 1 <= k <= |items| ensures writeOk(k) {
        assert WriteContent(writeOk)(0 + (k - 1), items[k - 1]) == Pass;
      }
    }
  }

  /** handleStreamChatCompletion. The `k`-th call of sendStreamEvent succeeds
      exactly when `writeOk(k)`; the start event is call 0. */
  function HandleStream(req: ChatRequest, backend: Backend, parse: NestedParser,
                        streamId: string, created: int, writeOk: nat -> bool): (r: StreamRun)
    ensures |r.events| > 0 && r.events[0] == StartChunk(streamId, created, req.model)
    ensures SharesEnvelope(r.events, streamId, created, req.model)
    ensures r.end == StartFailed <==> !writeOk(0)
    ensures r.end == PanickedAfterStart <==> writeOk(0) && !HasChatInput(req)
    ensures r.end == Finished <==>
      && writeOk(0) && HasChatInput(req) && backend.end == Pass
      && forall k :: 1 <= k <= |Accepted(backend.decoded, parse)| ==> writeOk(k)
    ensures r.end == Finished ==>
      r.events == [StartChunk(streamId, created, req.model)]
                     + ContentChunks(streamId, created, req.model, Accepted(backend.decoded, parse))
                     + [FinishChunk(streamId, created, req.model)]
  {
    var start := StartChunk(streamId, created, req.model);
    if !writeOk(0) then StreamRun([start], StartFailed)
    else if !HasChatInput(req) then StreamRun([start], PanickedAfterStart)
    else
      var x := N8nChat(req, backend, parse, WriteContent(writeOk));
      WriteContentAccepts(writeOk, Accepted(backend.decoded, parse));
      StreamAfterStart(req, backend, parse, streamId, created, writeOk, x.delivery)
  }

  /** The rest of handleStreamChatCompletion once the start event is out. */
  function StreamAfterStart(req: ChatRequest, backend: Backend, parse: NestedParser,
                            streamId: string, created: int, writeOk: nat -> bool, d: Delivery): (r: StreamRun)
    ensures |r.events| > 0 && r.events[0] == StartChunk(streamId, created, req.model)
    ensures SharesEnvelope(r.events, streamId, created, req.model)
    ensures r.end == Finished <==> d.status == Pass
    ensures r.end == Finished ==>
      r.events == [StartChunk(streamId, created, req.model)]
                  + ContentChunks(streamId, created, req.model, d.handed)
                  + [FinishChunk(streamId, created, req.model)]
    ensures r.end != Finished ==>
      r.end == Aborted(d.status.error) && r.events[1..] == ContentChunks(streamId, created, req.model, d.handed)
  {
    var sent := [StartChunk(streamId, created, req.model)] + ContentChunks(streamId, created, req.model, d.handed);
    match d.status
    case Fail(e) => StreamRun(sent, Aborted(e))
    case Pass => StreamRun(sent + [FinishChunk(streamId, created, req.model)], Finished)
  }

  // ---------------------------------------------------------------------------
  // Properties of the stream

  /** The deltas of a concatenation are the concatenated deltas. */
  lemma {:induction false} DeltaTextAppend(a: seq<Chunk>, b: seq<Chunk>)
    ensures DeltaText(a + b) == DeltaText(a) + DeltaText(b)
    decreases |a|
  {
    if |a| == 0 {
      assert a + b == b;
    } else {
      assert (a + b)[0] == a[0];
      assert (a + b)[1..] == a[1..] + b;
      DeltaTextAppend(a[1..], b);
    }
  }

  /** The content events of some items carry exactly those items' contents. */
  lemma {:induction false} DeltaTextOfContent(id: string, created: int, model: string, items: seq<Item>)
    ensures DeltaText(ContentChunks(id, created, model, items)) == Contents(items)
    decreases |items|
  {
    if |items| > 0 {
      var cs := ContentChunks(id, created, model, items);
      assert cs[1..] == ContentChunks(id, created, model, items[1..]);
      DeltaTextOfContent(id, created, model, items[1..]);
    }
  }

  /** A stream that finishes is framed: one start event, one content event per
      accepted backend item carrying its content, in order, then one finish
      event; the deltas spell out the same text as the aggregated response. */
  lemma FinishedStreamIsFramed(req: ChatRequest, backend: Backend, parse: NestedParser,
                               streamId: string, created: int, writeOk: nat -> bool)
    requires HandleStream(req, backend, parse, streamId, created, writeOk).end == Finished
    ensures var r := HandleStream(req, backend, parse, streamId, created, writeOk);
      && Framed(r.events)
      && |r.events| == |Accepted(backend.decoded, parse)| + 2
      && (forall i :: 0 < i < |r.events| - 1 ==>
            r.events[i].choices[0].delta.content == Some(Accepted(backend.decoded, parse)[i - 1].content))
      && DeltaText(r.events) == Contents(Accepted(backend.decoded, parse))
  {
    var r := HandleStream(req, backend, parse, streamId, created, writeOk);
    var items := Accepted(backend.decoded, parse);
    var start := StartChunk(streamId, created, req.model);
    var cs := ContentChunks(streamId, created, req.model, items);
    var finish := FinishChunk(streamId, created, req.model);
    assert r.events == [start] + cs + [finish];
    forall i | 0 < i < |r.events| - 1
      ensures IsContent(r.events[i])
      ensures r.events[i].choices[0].delta.content == Some(items[i - 1].content)
    {
      assert r.events[i] == cs[i - 1];
    }
    DeltaTextAppend([start] + cs, [finish]);
    DeltaTextAppend([start], cs);
    DeltaTextOfContent(streamId, created, req.model, items);
  }

  /** A stream that does not finish has sent the start event and then the
      content events of a prefix of the accepted items, every write but the
      last having succeeded. A write error is the failed write of the last
      content event; any other abort is the backend's own error after every
      accepted item was sent. */
  lemma StreamStopsEarly(req: ChatRequest, backend: Backend, parse: NestedParser,
                         streamId: string, created: int, writeOk: nat -> bool)
    requires HandleStream(req, backend, parse, streamId, created, writeOk).end != Finished
    ensures var r := HandleStream(req, backend, parse, streamId, created, writeOk);
            var items := Accepted(backend.decoded, parse);
      && |r.events| - 1 <= |items|
      && r.events[1..] == ContentChunks(streamId, created, req.model, items[..|r.events| - 1])
      && (forall k :: 1 <= k < |r.events| - 1 ==> writeOk(k))
      && (r.end == Aborted(WriteError) ==> !writeOk(|r.events| - 1))
      && (r.end.Aborted? && r.end.error != WriteError ==>
            backend.end == Fail(r.end.error) && |r.events| - 1 == |items|)
  {
    var r := HandleStream(req, backend, parse, streamId, created, writeOk);
    var items := Accepted(backend.decoded, parse);
    if writeOk(0) && HasChatInput(req) {
      var d := N8nChat(req, backend, parse, WriteContent(writeOk)).delivery;
      assert r == StreamAfterStart(req, backend, parse, streamId, created, writeOk, d);
      assert d.handed == items[..|d.handed|];
      if !AllAccepted(WriteContent(writeOk), 0, items) {
        assert StoppedAtLast(d, WriteContent(writeOk), 0);
      }
      forall k | 1 <= k < |r.events| - 1 ensures writeOk(k) {
        assert WriteContent(writeOk)(0 + (k - 1), d.handed[k - 1]) == Pass;
      }
    } else {
      assert r.events[1..] == [] && items[..0] == [];
    }
  }

  /** The finish event is never sent early: a stream that does not finish
      holds the start event followed by content events only. */
  lemma UnfinishedStreamHasNoFinish(req: ChatRequest, backend: Backend, parse: NestedParser,
                                    streamId: string, created: int, writeOk: nat -> bool)
    requires HandleStream(req, backend, parse, streamId, created, writeOk).end != Finished
    ensures var r := HandleStream(req, backend, parse, streamId, created, writeOk);
      IsStart(r.events[0]) && forall i :: 0 < i < |r.events| ==> IsContent(r.events[i]) && !IsFinish(r.events[i])
  {
    var r := HandleStream(req, backend, parse, streamId, created, writeOk);
    StreamStopsEarly(req, backend, parse, streamId, created, writeOk);
    forall i | 0 < i < |r.events| ensures IsContent(r.events[i]) {
      assert r.events[i] == r.events[1..][i - 1];
    }
  }

  /** With a writer that never fails, the two modes agree: the stream
      finishes exactly when the aggregated response is produced, and its
      deltas spell out that response's content. */
  lemma StreamMatchesNonStream(req: ChatRequest, backend: Backend, parse: NestedParser,
                               streamId: string, created: int, created': int, writeOk: nat -> bool)
    requires HasChatInput(req)
    requires forall k :: writeOk(k)
    ensures var s := HandleStream(req, backend, parse, streamId, created, writeOk);
            var n := HandleNonStream(req, backend, parse, created');
      && (s.end == Finished <==> n.Replied?)
      && (n.Replied? ==> DeltaText(s.events) == n.response.choices[0].message.content)
  {
    if HandleStream(req, backend, parse, streamId, created, writeOk).end == Finished {
      FinishedStreamIsFramed(req, backend, parse, streamId, created, writeOk);
    }
  }
}

=== FILE: event_stream.dfy ===
/** sendStreamEvent: every chunk goes out as one server-sent event,
    `data: <json>` followed by a blank line, in the event-stream format of
    the WHATWG HTML Living Standard, section 9.2 (Server-sent events). The
    JSON encoder is a parameter. The decoder below is a reference reading
    of that format restricted to what the gateway writes: one `data` field
    per event, a single space after the colon, LF line endings. */
module EventStream {
  import opened Wrappers
  import opened Api

  /** One event-stream frame carrying `payload`. */
  function Frame(payload: string): (f: string)
    ensures |f| == |payload| + 8
    ensures f[..6] == "data: " && f[6..|f| - 2] == payload && f[|f| - 2..] == "\n\n"
  {
    "data: " + payload + "\n\n"
  }

  /** sendStreamEvent: the bytes written for one chunk, its encoding between
      the `data: ` field name and the blank line that ends the event. */
  function SendStreamEvent(encode: Chunk -> string, chunk: Chunk): (f: string)
    ensures |f| == |encode(chunk)| + 8
    ensures f[..6] == "data: " && f[6..|f| - 2] == encode(chunk) && f[|f| - 2..] == "\n\n"
  {
    Frame(encode(chunk))
  }

  /** The bytes written for a stream: sendStreamEvent for each chunk, in order. */
  function Written(encode: Chunk -> string, chunks: seq<Chunk>): string
    decreases |chunks|
  {
    if |chunks| == 0 then "" else SendStreamEvent(encode, chunks[0]) + Written(encode, chunks[1..])
  }

  /** The encodings of a stream's chunks, in order. */
  function Payloads(encode: Chunk -> string, chunks: seq<Chunk>): (ps: seq<string>)
    ensures |ps| == |chunks|
    ensures forall i :: 0 <= i < |chunks| ==> ps[i] == encode(chunks[i])
  {
    seq(|chunks|, i requires 0 <= i < |chunks| => encode(chunks[i]))
  }

  /** Frames written back to back. */
  function Frames(payloads: seq<string>): string
    decreases |payloads|
  {
    if |payloads| == 0 then "" else Frame(payloads[0]) + Frames(payloads[1..])
  }

  /** The first line of `s` and what follows its LF, if `s` holds an LF. */
  function TakeLine(s: string): (r: Option<(string, string)>)
    ensures r.None? <==> '\n' !in s
    ensures r.Some? ==> '\n' !in r.value.0 && s == r.value.0 + "\n" + r.value.1
    decreases |s|
  {
    if |s| == 0 then None
    else if s[0] == '\n' then Some(("", s[1..]))
    else match TakeLine(s[1..])
      case None => None
      case Some((line, after)) => Some(([s[0]] + line, after))
  }

  /** The data of each event in a stream of `data: ` lines each followed by a
      blank line; `None` for anything else. */
  function DecodeFrames(s: string): Option<seq<string>>
    decreases |s|
  {
    if |s| == 0 then Some([])
    else if |s| < 6 || s[..6] != "data: " then None
    else match TakeLine(s[6..])
      case None => None
      case Some((data, after)) =>
        if |after| == 0 || after[0] != '\n' then None
        else match DecodeFrames(after[1..])
          case None => None
          case Some(rest) => Some([data] + rest)
  }

  /** A line without LF is taken whole, up to its LF. */
  lemma {:induction false} TakeLineOf(line: string, after: string)
    requires '\n' !in line
    ensures TakeLine(line + "\n" + after) == Some((line, after))
    decreases |line|
  {
    var s := line + "\n" + after;
    if |line| == 0 {
      assert s == "\n" + after;
      assert s[1..] == after;
    } else {
      assert s[1..] == line[1..] + "\n" + after;
      assert '\n' !in line[1..] by {
        forall x | x in line[1..] ensures x != '\n' { assert x in line; }
      }
      TakeLineOf(line[1..], after);
      assert [line[0]] + line[1..] == line;
    }
  }

  /** Frames decode back to their payloads when no payload holds an LF, as
      compact JSON never does. */
  lemma {:induction false} FramesDecode(payloads: seq<string>)
    requires forall i :: 0 <= i < |payloads| ==> '\n' !in payloads[i]
    ensures DecodeFrames(Frames(payloads)) == Some(payloads)
    decreases |payloads|
  {
    if |payloads| > 0 {
      var p := payloads[0];
      var rest := Frames(payloads[1..]);
      var s := Frames(payloads);
      assert s == "data: " + (p + "\n" + ("\n" + rest));
      assert s[..6] == "data: ";
      assert s[6..] == p + "\n" + ("\n" + rest);
      TakeLineOf(p, "\n" + rest);
      assert ("\n" + rest)[1..] == rest;
      FramesDecode(payloads[1..]);
      assert payloads == [p] + payloads[1..];
    }
  }

  /** Writing chunk by chunk is framing their encodings. */
  lemma {:induction false} WrittenFrames(encode: Chunk -> string, chunks: seq<Chunk>)
    ensures Written(encode, chunks) == Frames(Payloads(encode, chunks))
    decreases |chunks|
  {
    if |chunks| > 0 {
      WrittenFrames(encode, chunks[1..]);
      assert Payloads(encode, chunks)[1..] == Payloads(encode, chunks[1..]);
    }
  }

  /** The chunks of a stream, written with sendStreamEvent, are recovered one
      event per chunk, in order, when no encoding holds an LF. */
  lemma StreamDecodes(encode: Chunk -> string, chunks: seq<Chunk>)
    requires forall i :: 0 <= i < |chunks| ==> '\n' !in encode(chunks[i])
    ensures DecodeFrames(Written(encode, chunks)) == Some(Payloads(encode, chunks))
  {
    WrittenFrames(encode, chunks);
    FramesDecode(Payloads(encode, chunks));
  }
}

=== FILE: handler.dfy ===
/** chatCompletionsHandler: reject a malformed body or an unusable model
    with HTTP 400, otherwise answer through the streamed or the aggregated
    path. The registry is consulted only to validate the model name: the
    backend request always goes to the fixed webhook. */
module Handler {
  import opened Wrappers
  import opened Api
  import opened N8n
  import opened Completion
  import Models

  /** Where a bound request goes. */
  datatype Route = Reject(error: string) | Streamed | Aggregated

  /** Go's map index: the stored URL, or the empty string for a missing key. */
  function Lookup(registry: Models.Registry, name: string): (url: string)
    ensures name in registry ==> url == registry[name]
    ensures name !in registry ==> url == ""
  {
    if name in registry then registry[name] else ""
  }

  /** A model is usable when the registry holds a non-empty URL for it. */
  predicate Usable(registry: Models.Registry, name: string) {
    name in registry && registry[name] != ""
  }

  /** The dispatch of a request that bound: an unusable model is rejected;
      a usable one streams exactly when `stream` is present and true. */
  function RouteOf(req: ChatRequest, registry: Models.Registry): (r: Route)
    ensures r == Reject("Invalid model name") <==> !Usable(registry, req.model)
    ensures r == Streamed <==> Usable(registry, req.model) && req.stream == Some(true)
    ensures r == Aggregated <==> Usable(registry, req.model) && req.stream != Some(true)
  {
    if |Lookup(registry, req.model)| == 0 then Reject("Invalid model name")
    else if req.stream.Some? && req.stream.value then Streamed
    else Aggregated
  }

  /** What the client receives. */
  datatype Reply =
    | BadRequest(error: string)               // HTTP 400 with an error body
    | Aggregate(outcome: NonStreamOutcome)    // the non-streamed path
    | Stream(run: StreamRun)                  // the streamed path: an event stream

  /** chatCompletionsHandler. `body` is the request as bound from JSON, `None`
      when binding failed. */
  function ChatCompletions(body: Option<ChatRequest>, registry: Models.Registry,
                           backend: Backend, parse: NestedParser,
                           created: int, streamId: string, writeOk: nat -> bool): (r: Reply)
    ensures body.None? ==> r == BadRequest("Invalid request format")
    ensures body.Some? && !Usable(registry, body.value.model) ==> r == BadRequest("Invalid model name")
    ensures r.Stream? <==>
      body.Some? && Usable(registry, body.value.model) && body.value.stream == Some(true)
    ensures r.Aggregate? <==>
      body.Some? && Usable(registry, body.value.model) && body.value.stream != Some(true)
    ensures r.Stream? ==> r.run == HandleStream(body.value, backend, parse, streamId, created, writeOk)
    ensures r.Aggregate? ==> r.outcome == HandleNonStream(body.value, backend, parse, created)
  {
    match body
    case None => BadRequest("Invalid request format")
    case Some(req) =>
      match RouteOf(req, registry)
      case Reject(e) => BadRequest(e)
      case Streamed => Stream(HandleStream(req, backend, parse, streamId, created, writeOk))
      case Aggregated => Aggregate(HandleNonStream(req, backend, parse, created))
  }

  /** A model configured with an empty URL (`a=`) is rejected like an unknown one. */
  lemma EmptyUrlRejected(req: ChatRequest, backend: Backend, parse: NestedParser,
                         created: int, streamId: string, writeOk: nat -> bool)
    requires req.model == "a"
    ensures ChatCompletions(Some(req), map["a" := ""], backend, parse, created, streamId, writeOk)
         == BadRequest("Invalid model name")
    ensures Models.ParseModels("a=") == Success(map["a" := ""])
  {
    Models.EmptyNameOrUrlAccepted();
  }

  /** The registry only validates the model name: two registries that both
      accept the model, whatever URLs they hold for it, give the same reply,
      and the backend is always reached at the fixed webhook. */
  lemma RegistryUrlUnused(req: ChatRequest, reg1: Models.Registry, reg2: Models.Registry,
                          backend: Backend, parse: NestedParser,
                          created: int, streamId: string, writeOk: nat -> bool)
    requires Usable(reg1, req.model) && Usable(reg2, req.model)
    ensures ChatCompletions(Some(req), reg1, backend, parse, created, streamId, writeOk)
         == ChatCompletions(Some(req), reg2, backend, parse, created, streamId, writeOk)
    ensures HasChatInput(req) ==> Outbound(req).url == WebhookUrl
  {
  }
}

=== FILE: models.dfy ===
/** The model registry of models.go: the `MODELS` configuration string
    `name=url;name=url;...` parsed once into a name-to-webhook map, and the
    `/v1/models` listing built from it. */
module Models {
  import opened Wrappers
  import Text

  /** Model name to backend webhook URL. */
  type Registry = map<string, string>

  /** Why getModels refuses start-up with `os.Exit(-1)`. */
  datatype ConfigError =
    | NotSet         // MODELS is empty or unset
    | InvalidFormat  // no segment of MODELS is a `name=url` pair

  /** The memoised registry: the package variable `Models`, nil until the first load. */
  datatype Cache = Unloaded | Loaded(models: Registry)

  // ---------------------------------------------------------------------------
  // Segments

  /** The `;`-separated segments of the configuration string. */
  function Segments(env: string): seq<string> {
    Text.Split(env, ';')
  }

  /** The `=`-separated fields of one segment. */
  function Fields(line: string): seq<string> {
    Text.Split(line, '=')
  }

  /** A segment that contributes an entry: it splits into exactly two fields. */
  predicate IsEntry(line: string) {
    |Fields(line)| == 2
  }

  function Name(line: string): string
    requires IsEntry(line)
  {
    Fields(line)[0]
  }

  function Url(line: string): string
    requires IsEntry(line)
  {
    Fields(line)[1]
  }

  /** `line` is a well-formed segment naming `k`. */
  predicate Defines(line: string, k: string) {
    IsEntry(line) && Name(line) == k
  }

  /** A segment is an entry exactly when it holds one `=`; it is then the
      name, the `=` and the URL, neither of which holds another `=`. */
  lemma EntryShape(line: string)
    ensures IsEntry(line) <==> Text.Count(line, '=') == 1
    ensures IsEntry(line) ==>
      && line == Name(line) + "=" + Url(line)
      && '=' !in Name(line)
      && '=' !in Url(line)
  {
    if IsEntry(line) {
      Text.SplitThenJoin(line, '=');
      var f := Fields(line);
      assert Text.Join(f, '=') == f[0] + ['='] + Text.Join(f[1..], '=');
    }
  }

  /** Any name and URL free of `=`, empty ones included, form an entry. */
  lemma EntryOf(name: string, url: string)
    requires '=' !in name && '=' !in url
    ensures IsEntry(name + "=" + url)
    ensures Name(name + "=" + url) == name && Url(name + "=" + url) == url
  {
    Text.SplitAround(name, url, '=');
    Text.SplitWithoutSeparator(name, '=');
    Text.SplitWithoutSeparator(url, '=');
  }

  // ---------------------------------------------------------------------------
  // Parsing

  /** The parse loop: each entry segment, left to right, assigns its URL to
      its name; other segments are skipped. */
  function AddEntries(m: Registry, lines: seq<string>): (r: Registry)
    ensures m.Keys <= r.Keys
    decreases |lines|
  {
    if |lines| == 0 then m
    else
      var m' := if IsEntry(lines[0]) then m[Name(lines[0]) := Url(lines[0])] else m;
      AddEntries(m', lines[1..])
  }

  /** Reference reading of "later duplicates overwrite earlier ones": the URL
      of the last segment in `lines` that defines `k`, if any. */
  function LastDefinition(lines: seq<string>, k: string): Option<string>
    decreases |lines|
  {
    if |lines| == 0 then None
    else match LastDefinition(lines[1..], k)
      case Some(url) => Some(url)
      case None => if Defines(lines[0], k) then Some(Url(lines[0])) else None
  }

  /** getModels without its memoisation: an empty string and a string with no
      entry segment are fatal; otherwise the registry of its entries. */
  function ParseModels(env: string): (r: Result<Registry, ConfigError>)
    ensures env == "" ==> r == Failure(NotSet)
    ensures r.Success? ==> |r.value| > 0
  {
    if |env| == 0 then Failure(NotSet)
    else
      var m := AddEntries(map[], Segments(env));
      if |m| == 0 then Failure(InvalidFormat) else Success(m)
  }

  /** getModels: a loaded registry is returned as it is, without looking at
      the configuration again; otherwise the configuration is parsed and the
      result is remembered. */
  function GetModels(cache: Cache, env: string): (r: Result<(Registry, Cache), ConfigError>)
    ensures cache.Loaded? ==> r == Success((cache.models, cache))
    ensures cache.Unloaded? ==>
      (r.Success? <==> ParseModels(env).Success?) &&
      (r.Success? ==> r.value == (ParseModels(env).value, Loaded(ParseModels(env).value))) &&
      (r.Failure? ==> r.error == ParseModels(env).error)
  {
    match cache
    case Loaded(m) => Success((m, cache))
    case Unloaded =>
      match ParseModels(env)
      case Success(m) => Success((m, Loaded(m)))
      case Failure(e) => Failure(e)
  }

  // ---------------------------------------------------------------------------
  // Properties of the parse

  /** A key is in the result exactly when it was in the start map or some
      segment defines it; a defined key holds the URL of its last definition,
      an undefined one keeps its old value. */
  lemma {:induction false} AddEntriesLookup(m: Registry, lines: seq<string>, k: string)
    ensures k in AddEntries(m, lines) <==> LastDefinition(lines, k).Some? || k in m
    ensures LastDefinition(lines, k).Some? ==> AddEntries(m, lines)[k] == LastDefinition(lines, k).value
    ensures LastDefinition(lines, k).None? && k in m ==> AddEntries(m, lines)[k] == m[k]
    decreases |lines|
  {
    if |lines| > 0 {
      var m' := if IsEntry(lines[0]) then m[Name(lines[0]) := Url(lines[0])] else m;
      AddEntriesLookup(m', lines[1..], k);
    }
  }

  /** Some definition exists exactly when some segment defines the key. */
  lemma {:induction false} LastDefinitionExists(lines: seq<string>, k: string)
    ensures LastDefinition(lines, k).Some? <==> exists i :: 0 <= i < |lines| && Defines(lines[i], k)
    decreases |lines|
  {
    if |lines| > 0 {
      LastDefinitionExists(lines[1..], k);
      if exists i :: 0 <= i < |lines| && Defines(lines[i], k) {
        var i :| 0 <= i < |lines| && Defines(lines[i], k);
        if i > 0 {
          assert Defines(lines[1..][i - 1], k);
        }
      }
      if exists i :: 0 <= i < |lines[1..]| && Defines(lines[1..][i], k) {
        var i :| 0 <= i < |lines[1..]| && Defines(lines[1..][i], k);
        assert Defines(lines[i + 1], k);
      }
    }
  }

  /** The definition that counts is the last one: if segment `i` defines `k`
      and no later segment does, its URL is the one kept. */
  lemma {:induction false} LastDefinitionIsLast(lines: seq<string>, k: string, i: nat)
    requires i < |lines| && Defines(lines[i], k)
    requires forall j :: i < j < |lines| ==> !Defines(lines[j], k)
    ensures LastDefinition(lines, k) == Some(Url(lines[i]))
    decreases |lines|
  {
    if i == 0 {
      forall j | 0 <= j < |lines[1..]| ensures !Defines(lines[1..][j], k) {
        assert lines[1..][j] == lines[j + 1];
      }
      LastDefinitionExists(lines[1..], k);
    } else {
      LastDefinitionIsLast(lines[1..], k, i - 1);
    }
  }

  /** Parsing succeeds exactly when the string is non-empty and some segment
      is an entry; a successful registry maps every defined name to the URL
      of its last definition and holds nothing else. */
  lemma ParseModelsSpec(env: string)
    ensures ParseModels(env).Success? <==>
      env != "" && exists i :: 0 <= i < |Segments(env)| && IsEntry(Segments(env)[i])
    ensures ParseModels(env).Success? ==> forall k ::
      (k in ParseModels(env).value <==> LastDefinition(Segments(env), k).Some?) &&
      (k in ParseModels(env).value ==> ParseModels(env).value[k] == LastDefinition(Segments(env), k).value)
  {
    var lines := Segments(env);
    var m := AddEntries(map[], lines);
    forall k ensures (k in m <==> LastDefinition(lines, k).Some?) &&
                     (k in m ==> m[k] == LastDefinition(lines, k).value) {
      AddEntriesLookup(map[], lines, k);
    }
    if env != "" {
      if exists i :: 0 <= i < |lines| && IsEntry(lines[i]) {
        var i :| 0 <= i < |lines| && IsEntry(lines[i]);
        LastDefinitionExists(lines, Name(lines[i]));
        assert Name(lines[i]) in m;
      }
      if |m| != 0 {
        var k :| k in m;
        LastDefinitionExists(lines, k);
      }
    }
  }

  /** Loading appends: segments after `xs` are applied to the registry built from `xs`. */
  lemma {:induction false} AddEntriesAppend(m: Registry, xs: seq<string>, ys: seq<string>)
    ensures AddEntries(m, xs + ys) == AddEntries(AddEntries(m, xs), ys)
    decreases |xs|
  {
    if |xs| > 0 {
      var m' := if IsEntry(xs[0]) then m[Name(xs[0]) := Url(xs[0])] else m;
      assert (xs + ys)[0] == xs[0];
      assert (xs + ys)[1..] == xs[1..] + ys;
      assert AddEntries(m, xs + ys) == AddEntries(m', xs[1..] + ys);
      assert AddEntries(m, xs) == AddEntries(m', xs[1..]);
      AddEntriesAppend(m', xs[1..], ys);
    } else {
      assert xs + ys == ys;
    }
  }

  /** A malformed segment between two parts of the configuration changes nothing. */
  lemma MalformedSegmentSkipped(before: string, bad: string, after: string)
    requires ';' !in bad && !IsEntry(bad)
    ensures ParseModels(before + ";" + bad + ";" + after) == ParseModels(before + ";" + after)
  {
    var env := before + ";" + bad + ";" + after;
    Text.SplitAround(before, bad + ";" + after, ';');
    Text.SplitAround(bad, after, ';');
    Text.SplitWithoutSeparator(bad, ';');
    assert env == before + [';'] + (bad + [';'] + after);
    Text.SplitAround(before, after, ';');
    var xs := Segments(before);
    var ys := Segments(after);
    assert Segments(env) == xs + ([bad] + ys);
    AddEntriesAppend(map[], xs, [bad] + ys);
    AddEntriesAppend(map[], xs, ys);
    assert ([bad] + ys)[1..] == ys;
  }

  /** A malformed first segment is skipped, as long as something follows it. */
  lemma LeadingMalformedSegmentSkipped(bad: string, after: string)
    requires ';' !in bad && !IsEntry(bad)
    requires after != ""
    ensures ParseModels(bad + ";" + after) == ParseModels(after)
  {
    Text.SplitAround(bad, after, ';');
    Text.SplitWithoutSeparator(bad, ';');
    assert bad + ";" + after == bad + [';'] + after;
    var ys := Segments(after);
    assert Segments(bad + ";" + after) == [bad] + ys;
    assert ([bad] + ys)[1..] == ys;
  }

  /** A malformed last segment is skipped, as long as something precedes it. */
  lemma TrailingMalformedSegmentSkipped(before: string, bad: string)
    requires ';' !in bad && !IsEntry(bad)
    requires before != ""
    ensures ParseModels(before + ";" + bad) == ParseModels(before)
  {
    Text.SplitAround(before, bad, ';');
    Text.SplitWithoutSeparator(bad, ';');
    assert before + ";" + bad == before + [';'] + bad;
    AddEntriesAppend(map[], Segments(before), [bad]);
    assert [bad][1..] == [];
  }

  /** A trailing `;` adds an empty segment, which is skipped. */
  lemma TrailingSeparatorSkipped(env: string)
    requires env != ""
    ensures ParseModels(env + ";") == ParseModels(env)
  {
    Text.SplitAround(env, "", ';');
    assert env + ";" == env + [';'] + "";
    assert Segments("") == [""];
    assert !IsEntry("");
    AddEntriesAppend(map[], Segments(env), [""]);
  }

  /** Empty names and empty URLs are accepted. */
  lemma EmptyNameOrUrlAccepted()
    ensures ParseModels("=x") == Success(map["" := "x"])
    ensures ParseModels("a=") == Success(map["a" := ""])
  {
    EntryOf("", "x");
    assert "" + "=" + "x" == "=x";
    Text.SplitWithoutSeparator("=x", ';');
    EntryOf("a", "");
    assert "a" + "=" + "" == "a=";
    Text.SplitWithoutSeparator("a=", ';');
  }

  /** A segment holding two `=` splits into three fields and is no entry. */
  lemma TwoSeparatorsRejected(name: string, middle: string, last: string)
    requires '=' !in name && '=' !in middle && '=' !in last
    ensures !IsEntry(name + "=" + middle + "=" + last)
  {
    var line := name + "=" + middle + "=" + last;
    assert line == name + ['='] + (middle + ['='] + last);
    Text.SplitAround(name, middle + ['='] + last, '=');
    Text.SplitAround(middle, last, '=');
  }

  /** A configuration that is a single non-entry segment refuses start-up. */
  lemma LoneMalformedSegmentRejected(line: string)
    requires line != "" && ';' !in line && !IsEntry(line)
    ensures ParseModels(line) == Failure(InvalidFormat)
  {
    Text.SplitWithoutSeparator(line, ';');
    assert [line][1..] == [];
    assert AddEntries(map[], [line]) == AddEntries(map[], []) == map[];
  }

  /** A URL with a query string holds a second `=`: the segment is skipped
      and, being the only one, start-up is refused. */
  lemma QueryStringUrlRejected()
    ensures ParseModels("a=x?k=v") == Failure(InvalidFormat)
  {
    assert !IsEntry("a=x?k=v") by {
      assert "a=x?k=v" == "a" + "=" + "x?k" + "=" + "v";
      assert '=' !in "x?k";
      TwoSeparatorsRejected("a", "x?k", "v");
    }
    assert ';' !in "a=x?k=v";
    LoneMalformedSegmentRejected("a=x?k=v");
  }

  /** A bare name without `=` is skipped; alone, it refuses start-up. */
  lemma BareNameRejected()
    ensures ParseModels("bad") == Failure(InvalidFormat)
  {
    assert '=' !in "bad" && ';' !in "bad";
    Text.SplitWithoutSeparator("bad", '=');
    LoneMalformedSegmentRejected("bad");
  }

  /** Two entries with distinct names, separated by `;`, give a two-entry registry. */
  lemma TwoEntries(n1: string, u1: string, n2: string, u2: string)
    requires '=' !in n1 && '=' !in u1 && '=' !in n2 && '=' !in u2
    requires ';' !in n1 && ';' !in u1 && ';' !in n2 && ';' !in u2
    ensures ParseModels(n1 + "=" + u1 + ";" + n2 + "=" + u2) == Success(map[n1 := u1, n2 := u2])
  {
    var a := n1 + "=" + u1;
    var b := n2 + "=" + u2;
    assert n1 + "=" + u1 + ";" + n2 + "=" + u2 == a + [';'] + b;
    Text.SplitAround(a, b, ';');
    Text.SplitWithoutSeparator(a, ';');
    Text.SplitWithoutSeparator(b, ';');
    EntryOf(n1, u1);
    EntryOf(n2, u2);
    assert [a, b][1..] == [b] && [b][1..] == [];
    calc {
      AddEntries(map[], [a, b]);
      AddEntries(map[n1 := u1], [b]);
      AddEntries(map[n1 := u1][n2 := u2], []);
    }
  }

  /** Two entries around a malformed segment: the malformed one is skipped
      and the registry holds exactly the two entries. */
  lemma EntryBadEntry(n1: string, u1: string, bad: string, n2: string, u2: string)
    requires '=' !in n1 && '=' !in u1 && '=' !in n2 && '=' !in u2
    requires ';' !in n1 && ';' !in u1 && ';' !in n2 && ';' !in u2
    requires ';' !in bad && !IsEntry(bad)
    ensures ParseModels(n1 + "=" + u1 + ";" + bad + ";" + n2 + "=" + u2)
         == Success(map[n1 := u1, n2 := u2])
  {
    var e1, e2 := n1 + "=" + u1, n2 + "=" + u2;
    assert n1 + "=" + u1 + ";" + bad + ";" + n2 + "=" + u2 == e1 + ";" + bad + ";" + e2;
    assert n1 + "=" + u1 + ";" + n2 + "=" + u2 == e1 + ";" + e2;
    MalformedSegmentSkipped(e1, bad, e2);
    TwoEntries(n1, u1, n2, u2);
  }

  /** Two well-formed segments around a malformed one, as a concrete configuration. */
  lemma MixedConfiguration()
    ensures ParseModels("a=x1;bad;b=y2") == Success(map["a" := "x1", "b" := "y2"])
  {
    calc {
      ParseModels("a=x1;bad;b=y2");
      { assert "a=x1;bad;b=y2" == "a" + "=" + "x1" + ";" + "bad" + ";" + "b" + "=" + "y2"; }
      ParseModels("a" + "=" + "x1" + ";" + "bad" + ";" + "b" + "=" + "y2");
      { assert '=' !in "bad" && ';' !in "bad";
        assert '=' !in "x1" && ';' !in "x1" && '=' !in "y2" && ';' !in "y2";
        Text.SplitWithoutSeparator("bad", '=');
        EntryBadEntry("a", "x1", "bad", "b", "y2"); }
      Success(map["a" := "x1", "b" := "y2"]);
    }
  }

  /** Once loaded, the registry is returned unchanged whatever the
      configuration now says: loading is idempotent. */
  lemma GetModelsIdempotent(cache: Cache, env: string, env': string)
    requires GetModels(cache, env).Success?
    ensures GetModels(GetModels(cache, env).value.1, env') == GetModels(cache, env)
    ensures |GetModels(cache, env).value.0| > 0 || cache.Loaded?
  {
  }

  // ---------------------------------------------------------------------------
  // The model list

  /** One entry of the `/v1/models` response. */
  datatype ModelCard = ModelCard(id: string, objectType: string, created: int)

  /** The `/v1/models` response. */
  datatype ModelList = ModelList(objectType: string, data: seq<ModelCard>)

  /** Every key exactly once, in an unspecified order: Go's `for k := range m`. */
  method Enumerate(keys: set<string>) returns (ks: seq<string>)
    ensures |ks| == |keys|
    ensures forall i :: 0 <= i < |ks| ==> ks[i] in keys
    ensures forall k :: k in keys ==> k in ks
    ensures forall i, j :: 0 <= i < j < |ks| ==> ks[i] != ks[j]
  {
    ks := [];
    var left := keys;
    while left != {}
      invariant left <= keys
      invariant |ks| + |left| == |keys|
      invariant forall i :: 0 <= i < |ks| ==> ks[i] in keys && ks[i] !in left
      invariant forall k :: k in keys && k !in left ==> k in ks
      invariant forall i, j :: 0 <= i < j < |ks| ==> ks[i] != ks[j]
      decreases left
    {
      var k :| k in left;
      ks := ks + [k];
      left := left - {k};
    }
  }

  /** One `"model"` card per name, the `i`-th stamped with the `i`-th clock reading. */
  function Cards(names: seq<string>, clock: nat -> int): (cards: seq<ModelCard>)
    ensures |cards| == |names|
    ensures forall i :: 0 <= i < |names| ==> cards[i] == ModelCard(names[i], "model", clock(i))
  {
    seq(|names|, i requires 0 <= i < |names| => ModelCard(names[i], "model", clock(i)))
  }

  /** modelsHandler: a `"list"` holding one `"model"` card per registry key,
      in the map's iteration order; the `i`-th card is stamped with the
      `i`-th clock reading. */
  method ListModels(models: Registry, clock: nat -> int) returns (list: ModelList)
    ensures list.objectType == "list"
    ensures |list.data| == |models|
    ensures forall i :: 0 <= i < |list.data| ==> list.data[i].id in models
    ensures forall k :: k in models ==> exists i :: 0 <= i < |list.data| && list.data[i].id == k
    ensures forall i, j :: 0 <= i < j < |list.data| ==> list.data[i].id != list.data[j].id
    ensures forall i :: 0 <= i < |list.data| ==>
      list.data[i].objectType == "model" && list.data[i].created == clock(i)
  {
    var names := Enumerate(models.Keys);
    var data := Cards(names, clock);
    forall k | k in models ensures exists i :: 0 <= i < |data| && data[i].id == k {
      var i :| 0 <= i < |names| && names[i] == k;
      assert data[i].id == k;
    }
    list := ModelList("list", data);
  }
}

=== FILE: n8n.dfy ===
/** n8nChat: the payload sent to the n8n webhook and the loop that filters,
    unwraps and delivers the items of its response. The HTTP exchange itself
    is not modelled: the backend's answer is given as the sequence of items
    the JSON decoder yields, followed by how the decoding ended. */
module N8n {
  import opened Wrappers
  import opened Api

  /** The webhook every request is posted to, whatever model it names. */
  const WebhookUrl: string :=
    "https://n8n.cicd.getdeepin.org/webhook/d58ddd17-1d51-4dd1-a5a5-a9fa8d4a81c3/chat"

  /** The JSON body posted to the webhook. */
  datatype Action = Action(action: string, sessionId: string, chatInput: string)

  /** The outbound POST: its URL and its JSON body. */
  datatype Post = Post(url: string, payload: Action)

  /** One item of the backend's response. Each decoded item is taken to be
      complete: the decoder's reuse of one variable across items is not modelled. */
  datatype Item = Item(kind: string, content: string, metadata: map<string, string>)

  /** The errors n8nChat can return: from the HTTP call, from the decoder,
      or from the callback (a failed write of a stream event). */
  datatype ChatError = TransportError | DecodeError | WriteError

  /** The errors the backend exchange itself can produce; a write error
      only ever comes from the callback. */
  type BackendError = e: ChatError | !e.WriteError? witness TransportError

  /** The backend's answer: the items decoded, in arrival order, then how the
      decode loop ended. `Pass` is the loop guard `decoder.More()` turning
      false, which happens at the end of the body but also on a read error or
      a stray closing bracket between values; `Fail(DecodeError)` is a value
      that does not decode. A failed HTTP call is `Fail(TransportError)` with
      no items. */
  datatype Backend = Backend(decoded: seq<Item>, end: Outcome<BackendError>)

  /** What n8nChat did: the items handed to the callback, in order, and the error it returned (or nil). */
  datatype Delivery = Delivery(handed: seq<Item>, status: Outcome<ChatError>)

  /** The callback: invoked with the number of earlier invocations and the item. */
  type Callback = (nat, Item) -> Outcome<ChatError>

  /** The decoder for an item's content: `Some` when the content is valid JSON
      that unmarshals into an item (the decoded item), `None` otherwise. */
  type NestedParser = string -> Option<Item>

  // ---------------------------------------------------------------------------
  // The payload

  /** The request indexes its last content part of its last message without
      checking: a request without one makes n8nChat panic. */
  predicate HasChatInput(req: ChatRequest) {
    |req.messages| > 0 && |req.messages[|req.messages| - 1].content| > 0
  }

  /** The text of the last content part of the last message. */
  function LastText(req: ChatRequest): string
    requires HasChatInput(req)
  {
    var last := req.messages[|req.messages| - 1];
    last.content[|last.content| - 1].text
  }

  /** `role: text` lines for the parts of one message. */
  function PartLines(role: string, parts: seq<ContentPart>): string
    decreases |parts|
  {
    if |parts| == 0 then ""
    else role + ": " + parts[0].text + "\n" + PartLines(role, parts[1..])
  }

  /** The transcript of the user messages that n8nChat builds first. */
  function Transcript(messages: seq<Message>): string
    decreases |messages|
  {
    if |messages| == 0 then ""
    else (if messages[0].role == "user" then PartLines(messages[0].role, messages[0].content) else "")
         + Transcript(messages[1..])
  }

  /** The webhook payload: action `sendMessage`, the caller's `user` as the
      session, and as chat input the transcript, immediately overwritten by
      the last part's text, whatever the role of its message. */
  function BuildAction(req: ChatRequest): (a: Action)
    requires HasChatInput(req)
    ensures a.action == "sendMessage" && a.sessionId == req.user
    ensures a.chatInput == LastText(req)
  {
    var draft := Action("sendMessage", req.user, Transcript(req.messages));
    draft.(chatInput := LastText(req))
  }

  /** The outbound request: always the fixed webhook; the registry plays no part. */
  function Outbound(req: ChatRequest): (p: Post)
    requires HasChatInput(req)
    ensures p.url == WebhookUrl
    ensures p.payload.action == "sendMessage" && p.payload.sessionId == req.user
    ensures p.payload.chatInput == LastText(req)
  {
    Post(WebhookUrl, BuildAction(req))
  }

  /** Only the session and the last part reach the backend: requests that agree
      on those send the same payload, whatever their earlier messages, roles or model. */
  lemma PayloadIgnoresHistory(r1: ChatRequest, r2: ChatRequest)
    requires HasChatInput(r1) && HasChatInput(r2)
    requires r1.user == r2.user && LastText(r1) == LastText(r2)
    ensures Outbound(r1) == Outbound(r2)
  {
  }

  /** The transcript is built and discarded: with a user turn followed by an
      assistant turn, the transcript holds the user line, but the chat input
      is the assistant's last part. */
  lemma TranscriptDiscarded()
    ensures var req := ChatRequest("m",
      [Message("user", [ContentPart("hi")]), Message("assistant", [ContentPart("a"), ContentPart("b")])],
      "s", None);
      && Transcript(req.messages) == "user: hi\n"
      && BuildAction(req) == Action("sendMessage", "s", "b")
  {
    var ms := [Message("user", [ContentPart("hi")]), Message("assistant", [ContentPart("a"), ContentPart("b")])];
    assert ms[1..][1..] == [];
    assert Transcript(ms[1..]) == "";
    assert PartLines("user", [ContentPart("hi")]) == "user: hi\n";
  }

  // ---------------------------------------------------------------------------
  // Filtering and unwrapping

  /** What the callback receives for one decoded item: nothing when the item's
      type is not `"item"`; otherwise the item decoded from its content when
      that succeeds (its type is not checked again), else the item itself. */
  function Resolve(item: Item, parse: NestedParser): (r: Option<Item>)
    ensures r.None? <==> item.kind != "item"
    ensures r.Some? && parse(item.content).Some? ==> r.value == parse(item.content).value
    ensures r.Some? && parse(item.content).None? ==> r.value == item
  {
    if item.kind != "item" then None
    else match parse(item.content)
      case Some(nested) => Some(nested)
      case None => Some(item)
  }

  /** The items the callback would receive, in order, if it never failed. */
  function Accepted(decoded: seq<Item>, parse: NestedParser): (r: seq<Item>)
    ensures |r| <= |decoded|
    decreases |decoded|
  {
    if |decoded| == 0 then []
    else match Resolve(decoded[0], parse)
      case None => Accepted(decoded[1..], parse)
      case Some(x) => [x] + Accepted(decoded[1..], parse)
  }

  /** Filtering distributes over concatenation: order of arrival is kept. */
  lemma {:induction false} AcceptedAppend(xs: seq<Item>, ys: seq<Item>, parse: NestedParser)
    ensures Accepted(xs + ys, parse) == Accepted(xs, parse) + Accepted(ys, parse)
    decreases |xs|
  {
    if |xs| == 0 {
      assert xs + ys == ys;
    } else {
      assert (xs + ys)[0] == xs[0];
      assert (xs + ys)[1..] == xs[1..] + ys;
      AcceptedAppend(xs[1..], ys, parse);
    }
  }

  /** An item whose type is not `"item"` contributes nothing, wherever it arrives. */
  lemma NonItemDropped(xs: seq<Item>, x: Item, ys: seq<Item>, parse: NestedParser)
    requires x.kind != "item"
    ensures Accepted(xs + [x] + ys, parse) == Accepted(xs + ys, parse)
  {
    AcceptedAppend(xs + [x], ys, parse);
    AcceptedAppend(xs, [x], parse);
    AcceptedAppend(xs, ys, parse);
    assert [x][1..] == [];
  }

  /** An `"item"` contributes exactly its resolved form, in its place. */
  lemma ItemKept(xs: seq<Item>, x: Item, ys: seq<Item>, parse: NestedParser)
    requires x.kind == "item"
    ensures Accepted(xs + [x] + ys, parse) ==
      Accepted(xs, parse) + [parse(x.content).GetOr(x)] + Accepted(ys, parse)
  {
    AcceptedAppend(xs + [x], ys, parse);
    AcceptedAppend(xs, [x], parse);
    assert [x][1..] == [];
  }

  /** A backend that sends no `"item"` delivers nothing. */
  lemma {:induction false} NoItemsNothingAccepted(decoded: seq<Item>, parse: NestedParser)
    requires forall i :: 0 <= i < |decoded| ==> decoded[i].kind != "item"
    ensures Accepted(decoded, parse) == []
    decreases |decoded|
  {
    if |decoded| > 0 {
      NoItemsNothingAccepted(decoded[1..], parse);
    }
  }

  // ---------------------------------------------------------------------------
  // Delivery

  /** The callback accepts every one of `items`, the first being its `n`-th invocation. */
  predicate AllAccepted(onMessage: Callback, n: nat, items: seq<Item>) {
    forall i :: 0 <= i < |items| ==> onMessage(n + i, items[i]) == Pass
  }

  /** Accepting a non-empty run is accepting its head and then its tail. */
  lemma AllAcceptedCons(onMessage: Callback, n: nat, x: Item, rest: seq<Item>)
    ensures AllAccepted(onMessage, n, [x] + rest) <==>
      onMessage(n, x) == Pass && AllAccepted(onMessage, n + 1, rest)
  {
    var xs := [x] + rest;
    if onMessage(n, x) == Pass && AllAccepted(onMessage, n + 1, rest) {
      forall i | 0 <= i < |xs| ensures onMessage(n + i, xs[i]) == Pass {
        if i > 0 { assert xs[i] == rest[i - 1]; assert n + i == (n + 1) + (i - 1); }
      }
    }
    if AllAccepted(onMessage, n, xs) {
      assert onMessage(n + 0, xs[0]) == Pass;
      forall i | 0 <= i < |rest| ensures onMessage(n + 1 + i, rest[i]) == Pass {
        assert rest[i] == xs[i + 1];
      }
    }
  }

  /** The callback accepted every one of `items` except possibly the last. */
  predicate AcceptedBeforeLast(onMessage: Callback, n: nat, items: seq<Item>) {
    forall i :: 0 <= i < |items| - 1 ==> onMessage(n + i, items[i]) == Pass
  }

  lemma AcceptedBeforeLastCons(onMessage: Callback, n: nat, x: Item, rest: seq<Item>)
    requires onMessage(n, x) == Pass && AcceptedBeforeLast(onMessage, n + 1, rest)
    ensures AcceptedBeforeLast(onMessage, n, [x] + rest)
  {
    var xs := [x] + rest;
    forall i | 0 <= i < |xs| - 1 ensures onMessage(n + i, xs[i]) == Pass {
      if i > 0 { assert xs[i] == rest[i - 1]; assert n + i == (n + 1) + (i - 1); }
    }
  }

  /** The decode loop from the `n`-th callback invocation on: each resolved
      item goes to the callback in arrival order; the first callback error
      stops the loop and is returned, and once every decoded item is handled
      the decoder's own outcome is returned. What it hands over is a prefix of
      the accepted items, all but the last of which the callback accepted. */
  function Deliver(decoded: seq<Item>, end: Outcome<ChatError>, parse: NestedParser,
                   onMessage: Callback, n: nat): (d: Delivery)
    ensures d.handed <= Accepted(decoded, parse)
    ensures AcceptedBeforeLast(onMessage, n, d.handed)
    decreases |decoded|
  {
    if |decoded| == 0 then Delivery([], end)
    else match Resolve(decoded[0], parse)
      case None => Deliver(decoded[1..], end, parse, onMessage, n)
      case Some(x) =>
        match onMessage(n, x)
        case Fail(e) => Delivery([x], Fail(e))
        case Pass =>
          var rest := Deliver(decoded[1..], end, parse, onMessage, n + 1);
          AcceptedBeforeLastCons(onMessage, n, x, rest.handed);
          Delivery([x] + rest.handed, rest.status)
  }

  /** When the callback accepts every accepted item, all of them are handed
      over and the decoder's own outcome is returned. */
  lemma {:induction false} DeliverAll(decoded: seq<Item>, end: Outcome<ChatError>, parse: NestedParser,
                                      onMessage: Callback, n: nat)
    requires AllAccepted(onMessage, n, Accepted(decoded, parse))
    ensures Deliver(decoded, end, parse, onMessage, n) == Delivery(Accepted(decoded, parse), end)
    decreases |decoded|
  {
    if |decoded| > 0 {
      match Resolve(decoded[0], parse)
      case None =>
        DeliverAll(decoded[1..], end, parse, onMessage, n);
      case Some(x) =>
        AllAcceptedCons(onMessage, n, x, Accepted(decoded[1..], parse));
        DeliverAll(decoded[1..], end, parse, onMessage, n + 1);
    }
  }

  /** The shape of a stopped delivery: something was handed over, and the
      returned error is the callback's answer for the last item handed. */
  predicate StoppedAtLast(d: Delivery, onMessage: Callback, n: nat) {
    && |d.handed| > 0
    && d.status.Fail?
    && d.status == onMessage(n + |d.handed| - 1, d.handed[|d.handed| - 1])
  }

  /** Accepting the head does not change where a later stop happens. */
  lemma StoppedAtLastCons(x: Item, rest: Delivery, onMessage: Callback, n: nat)
    requires StoppedAtLast(rest, onMessage, n + 1)
    ensures StoppedAtLast(Delivery([x] + rest.handed, rest.status), onMessage, n)
  {
    assert ([x] + rest.handed)[|rest.handed|] == rest.handed[|rest.handed| - 1];
  }

  /** When the callback refuses some accepted item, delivery stops at the
      first refusal and returns it. */
  lemma {:induction false} DeliverStops(decoded: seq<Item>, end: Outcome<ChatError>, parse: NestedParser,
                                        onMessage: Callback, n: nat)
    requires !AllAccepted(onMessage, n, Accepted(decoded, parse))
    ensures StoppedAtLast(Deliver(decoded, end, parse, onMessage, n), onMessage, n)
    decreases |decoded|
  {
    if |decoded| == 0 {
      assert false;
    }
    var d := Deliver(decoded, end, parse, onMessage, n);
    var tail := Accepted(decoded[1..], parse);
    match Resolve(decoded[0], parse)
    case None =>
      assert Accepted(decoded, parse) == tail;
      assert d == Deliver(decoded[1..], end, parse, onMessage, n);
      DeliverStops(decoded[1..], end, parse, onMessage, n);
    case Some(x) =>
      assert Accepted(decoded, parse) == [x] + tail;
      AllAcceptedCons(onMessage, n, x, tail);
      if onMessage(n, x) == Pass {
        var rest := Deliver(decoded[1..], end, parse, onMessage, n + 1);
        assert d == Delivery([x] + rest.handed, rest.status);
        DeliverStops(decoded[1..], end, parse, onMessage, n + 1);
        StoppedAtLastCons(x, rest, onMessage, n);
      } else {
        assert d == Delivery([x], onMessage(n, x));
      }
  }

  /** The outcome of n8nChat: the POST it sends and what it delivered. */
  datatype Exchange = Exchange(post: Post, delivery: Delivery)

  /** n8nChat: post the payload to the webhook, then deliver the backend's items. */
  function N8nChat(req: ChatRequest, backend: Backend, parse: NestedParser, onMessage: Callback): (x: Exchange)
    requires HasChatInput(req)
    ensures x.post == Outbound(req)
    ensures x.delivery.handed <= Accepted(backend.decoded, parse)
    ensures AcceptedBeforeLast(onMessage, 0, x.delivery.handed)
    ensures x.delivery.status == Pass <==>
      backend.end == Pass && AllAccepted(onMessage, 0, Accepted(backend.decoded, parse))
    ensures AllAccepted(onMessage, 0, Accepted(backend.decoded, parse)) ==>
      x.delivery == Delivery(Accepted(backend.decoded, parse), backend.end)
    ensures !AllAccepted(onMessage, 0, Accepted(backend.decoded, parse)) ==>
      StoppedAtLast(x.delivery, onMessage, 0)
  {
    var d := Deliver(backend.decoded, backend.end, parse, onMessage, 0);
    if AllAccepted(onMessage, 0, Accepted(backend.decoded, parse)) then
      DeliverAll(backend.decoded, backend.end, parse, onMessage, 0);
      Exchange(Outbound(req), d)
    else
      DeliverStops(backend.decoded, backend.end, parse, onMessage, 0);
      Exchange(Outbound(req), d)
  }
}

=== FILE: text.dfy ===
/** Go's `strings.Split` with a one-character separator, as the registry
    parser uses it, and `Join`, its inverse, for the round-trip lemmas. */
module Text {

  /** Number of occurrences of `c` in `s`. */
  function Count(s: string, c: char): nat
    decreases |s|
  {
    if |s| == 0 then 0
    else (if s[0] == c then 1 else 0) + Count(s[1..], c)
  }

  /** The pieces glued back together with `c` between them. */
  function Join(pieces: seq<string>, c: char): string
    decreases |pieces|
  {
    if |pieces| == 0 then ""
    else if |pieces| == 1 then pieces[0]
    else pieces[0] + [c] + Join(pieces[1..], c)
  }

  /** Go's `strings.Split(s, string(c))`: the pieces between the occurrences
      of `c`. There is always one piece more than there are separators, so
      the empty string splits into one empty piece, and no piece contains
      the separator. */
  function Split(s: string, c: char): (pieces: seq<string>)
    ensures |pieces| == Count(s, c) + 1
    ensures forall i :: 0 <= i < |pieces| ==> c !in pieces[i]
    decreases |s|
  {
    if |s| == 0 then [""]
    else
      var rest := Split(s[1..], c);
      if s[0] == c then [""] + rest
      else [[s[0]] + rest[0]] + rest[1..]
  }

  /** Joining a piece in front of further pieces puts a separator between them. */
  lemma JoinCons(p: string, rest: seq<string>, c: char)
    requires |rest| > 0
    ensures Join([p] + rest, c) == p + [c] + Join(rest, c)
  {
    assert ([p] + rest)[1..] == rest;
  }

  /** Extending the first piece extends the joined string. */
  lemma JoinExtendFirst(x: char, pieces: seq<string>, c: char)
    requires |pieces| > 0
    ensures Join([[x] + pieces[0]] + pieces[1..], c) == [x] + Join(pieces, c)
  {
    if |pieces| > 1 {
      JoinCons([x] + pieces[0], pieces[1..], c);
      JoinCons(pieces[0], pieces[1..], c);
      assert pieces == [pieces[0]] + pieces[1..];
    }
  }

  /** Joining the pieces back with the separator gives the original string. */
  lemma {:induction false} SplitThenJoin(s: string, c: char)
    ensures Join(Split(s, c), c) == s
    decreases |s|
  {
    if |s| > 0 {
      var t := s[1..];
      assert s == [s[0]] + t;
      SplitCons(s[0], t, c);
      SplitThenJoin(t, c);
      if s[0] == c {
        JoinCons("", Split(t, c), c);
      } else {
        JoinExtendFirst(s[0], Split(t, c), c);
      }
    }
  }

  /** A separator-free string is a single piece. */
  lemma {:induction false} SplitWithoutSeparator(s: string, c: char)
    requires c !in s
    ensures Split(s, c) == [s]
    decreases |s|
  {
    if |s| > 0 {
      assert c !in s[1..] by {
        forall x | x in s[1..] ensures x != c { assert x in s; }
      }
      SplitWithoutSeparator(s[1..], c);
      assert s == [s[0]] + s[1..];
    }
  }

  /** Splitting a string that starts with `x`: one step of the definition. */
  lemma SplitCons(x: char, t: string, c: char)
    ensures Split([x] + t, c) ==
      if x == c then [""] + Split(t, c)
      else [[x] + Split(t, c)[0]] + Split(t, c)[1..]
  {
    assert ([x] + t)[0] == x && ([x] + t)[1..] == t;
  }

  /** Extending the first piece commutes with appending further pieces. */
  lemma ExtendFirst(x: char, ra: seq<string>, rb: seq<string>)
    requires |ra| > 0
    ensures [[x] + (ra + rb)[0]] + (ra + rb)[1..] == ([[x] + ra[0]] + ra[1..]) + rb
  {
    assert (ra + rb)[0] == ra[0];
    assert (ra + rb)[1..] == ra[1..] + rb;
  }

  /** Splitting distributes over a separator: the pieces of `a + c + b` are
      the pieces of `a` followed by the pieces of `b`. */
  lemma {:induction false} SplitAround(a: string, b: string, c: char)
    ensures Split(a + [c] + b, c) == Split(a, c) + Split(b, c)
    decreases |a|
  {
    var s := a + [c] + b;
    if |a| == 0 {
      assert s[0] == c && s[1..] == b;
    } else {
      assert s[0] == a[0] && s[1..] == a[1..] + [c] + b;
      SplitAround(a[1..], b, c);
      if a[0] != c {
        ExtendFirst(a[0], Split(a[1..], c), Split(b, c));
      }
    }
  }

  /** Joining separator-free pieces and splitting again gives the pieces back. */
  lemma {:induction false} JoinThenSplit(pieces: seq<string>, c: char)
    requires |pieces| > 0
    requires forall i :: 0 <= i < |pieces| ==> c !in pieces[i]
    ensures Split(Join(pieces, c), c) == pieces
    decreases |pieces|
  {
    if |pieces| == 1 {
      SplitWithoutSeparator(pieces[0], c);
    } else {
      JoinThenSplit(pieces[1..], c);
      SplitAround(pieces[0], Join(pieces[1..], c), c);
      SplitWithoutSeparator(pieces[0], c);
      assert pieces == [pieces[0]] + pieces[1..];
    }
  }
}

=== FILE: wrappers.dfy ===
/** The `Option`, `Outcome` and `Result` datatypes shared by the gateway model. */
module Wrappers {

  /** A value that may be absent: a Go zero value, a nil pointer or a failed decode. */
  datatype Option<+T> = None | Some(value: T) {

    /** Returns the value, or `default` when there is none. */
    function GetOr(default: T): T {
      match this
      case Some(v) => v
      case None => default
    }
  }

  /** Go's `error` return: nil (`Pass`) or a non-nil error (`Fail`). */
  datatype Outcome<+E> = Pass | Fail(error: E)

  /** A value or an error; used for fatal start-up conditions. */
  datatype Result<+R, +E> = Success(value: R) | Failure(error: E)
}
